=== FILE: README.md ===
# Field extractors of the GotSport schedule scraper

This project models the three functions of the scraper (`main.go`) that pull
one field of a match out of the text around a schedule row: the opponent
(`findOpponentInContext`), the kickoff time (`findTimeInContext`) and the
division (`findDivisionInContext`). Each one returns a sentinel when nothing
is found: "TBD" for the opponent and the time, "League" for the division.

Strings are `seq<char>`. Each `char` stands for one byte of an ASCII
document, so lengths and indices are byte counts, as in Go.

Modules:

- `GoStrings` models the part of Go's `strings` package the extractors call:
  `Index`, `Contains`, `HasPrefix`, `HasSuffix`, `ToLower`, `ToUpper`,
  `TrimSpace`, `Split` and `Fields`. `HasPrefix`, `HasSuffix`, `ToLower` and
  `ToUpper` are one-line definitions; `ToUpperSpec` states what upper-casing
  leaves. Lemmas tie `Index`, `TrimSpace`, `Split` and `Fields` to their
  meaning. For `Split` this is the join round trip. For `Fields` it is the
  maximal non-space runs, in order.
- `Options` holds `Option` and two generic searches: the first element that
  yields a value, and the ordered list of all values.
- `Markup` holds the context's lines and a line's link text. The link text is
  the bytes after the first `>` and before the next `<`.
- `Regex` is the regular-expression engine. It is taken as a parameter
  (`Matcher`) and is not modelled.
- `MeridiemRewrite` is the one fixed regular-expression replacement the time
  extractor uses: `(\d{1,2}:\d{2})(AM|PM)` becomes `$1 $2`. It is written out
  as a scan, which is exact because a match at a given position is unique.
- `OpponentExtractor` models `findOpponentInContext`. It is a method that
  runs the source's two loops, the candidate collection and the running
  longest, each written as a method of its own. The method is proved to
  compute the specification function `Opponent`.
- `TimeExtractor` and `DivisionExtractor` model the other two functions as
  ordered first-match searches.

## Model

| member | source | states |
|---|---|---|
| OpponentExtractor.FindOpponentInContext | main.go:2-43 | The result is the longest candidate of the context's lines, or "TBD" when that is empty. |
| OpponentExtractor.CollectCandidates | main.go:6-25 | The first loop appends each line's contribution. It ends with exactly the candidates, in line order. |
| OpponentExtractor.ExtractCandidate | main.go:9-24 | One iteration of the first loop yields exactly the line's contribution as the specification defines it. |
| OpponentExtractor.RunningLongest | main.go:28-34 | The second loop replaces its best only by a strictly longer candidate. It ends with exactly the running longest. |
| OpponentExtractor.LineCandidate | main.go:9-24 | What one line contributes. LineCandidateSpec and NameRenoCheckIsRedundant characterise it in both directions. |
| OpponentExtractor.IsOpponentLink | main.go:10 | The three line tests. LineCandidateSpec states that a line contributes only when they hold, and always when the name filter also passes. |
| OpponentExtractor.LooksLikeTeamName | main.go:16-19 | The name filter. CandidatesLookLikeTeamNames and OpponentIsFirstLongestCandidate state that every candidate and every reported opponent passes it. |
| OpponentExtractor.Longest | main.go:28-34 | The running longest with a strict comparison. LongestIsFirstLongest shows it is the earliest member of maximal length. |
| OpponentExtractor.Opponent | main.go:27-42 | The specification of the extractor. OpponentUnknownIffNoCandidates and OpponentIsFirstLongestCandidate state its sentinel and its choice. |
| OpponentExtractor.LineCandidateSpec | main.go:9-20 | A line yields a candidate only if, once trimmed, it contains `<a href=`, its lower-case form has no "reno", and it has no `schedules?pitch`. The candidate is the trimmed link text and passes the name filter. Conversely, every such link text that passes the filter is yielded. |
| OpponentExtractor.NameRenoCheckIsRedundant | main.go:10-17 | The name-level "reno" check never rejects anything. The name is a slice of a line whose lower-case form already has no "reno". |
| OpponentExtractor.CandidatesAreContributions | main.go:8-25 | A string is a candidate exactly when some line yields it. |
| OpponentExtractor.CandidatesLookLikeTeamNames | main.go:16-20 | Every candidate is longer than 8 bytes and contains a space. Lower-cased, it contains none of "reno", "field" or "park". |
| OpponentExtractor.LongestIsFirstLongest | main.go:28-34 | The running longest of a non-empty list is a member of the list. It is at least as long as every member and strictly longer than every earlier member, so ties go to the first. Of an empty list it is "". |
| OpponentExtractor.OpponentUnknownIffNoCandidates | main.go:36-42 | "TBD" is returned exactly when no candidate survived filtering. |
| OpponentExtractor.OpponentIsFirstLongestCandidate | main.go:16-42 | Any result other than "TBD" is yielded by some line and passes the name filter. It is the earliest candidate of maximal length. |
| Markup.Lines | main.go:3 | The context splits into at least one line. No line holds a newline, and joining the lines with newlines gives the context back. |
| Markup.LinkTextSpec | main.go:12-14 | A line has link text exactly when it has a `>` followed somewhere by a `<`. The text starts right after the first `>`, is followed by a `<`, and contains no `<`. |
| Markup.LinkText | main.go:12-14 | The bytes between the first `>` and the next `<`, shared with the division extractor. LinkTextSpec characterises it in both directions. |
| TimeExtractor.FindTime | main.go:46-111 | The pattern stage, then the word scan, then "TBD". FirstMatchingPatternWins, FirstWordHitWins and UnknownIffNothingMatches state the order and the sentinel. |
| TimeExtractor.FromPatterns | main.go:59-83 | The patterns tried in order with the first formatted result kept. FirstMatchingPatternWins and PatternStageIsNotUnknown are about it. |
| TimeExtractor.FormatGroups | main.go:62-82 | How one pattern's submatches become a time. FormatGroupsShape, SpacedTimeWithZone and PatternTimeIsNotUnknown characterise it. |
| TimeExtractor.WordTime | main.go:88-105 | What one word of the scan yields. WordTimeSpec (only if), NextWordMarkerYieldsTime and AttachedMarkerYieldsTime (if) characterise it. |
| TimeExtractor.FormatGroupsShape | main.go:62-70 | With at least three submatches, the time is the trimmed clock, one space and the upper-cased marker. A space and the upper-cased zone follow exactly when a non-empty fourth submatch exists. Nothing after the clock has a lower-case letter. |
| TimeExtractor.SpacedTimeWithZone | main.go:49-70 | For any H:MM or HH:MM clock, AM/PM marker in any letter case and zone word, the submatches format to the clock, a space, the upper-cased marker, a space and the upper-cased zone, as in "10:30 pm pdt" giving "10:30 PM PDT". |
| TimeExtractor.PatternTimeIsNotUnknown | main.go:62-81 | A formatted pattern result is neither "TBD" nor empty. With three submatches or more this holds outright; with two it holds when the whole match contains a colon. |
| TimeExtractor.PatternStageIsNotUnknown | main.go:59-83 | When every whole match of a time pattern contains a colon, a time found by the pattern stage is neither "TBD" nor empty. |
| TimeExtractor.UnknownIffNothingMatches | main.go:59-110 | When every whole match of a time pattern contains a colon, "TBD" is returned exactly when no pattern and no word yields a time. |
| TimeExtractor.FindTimeNeverBlank | main.go:46-111 | When every whole match of a time pattern contains a colon, the reported time is never the empty string. |
| TimeExtractor.FirstMatchingPatternWins | main.go:59-83 | The patterns are tried in order. The first one whose submatches format to a time decides the result. |
| TimeExtractor.ManualTime | main.go:86-107 | The word scan yields nothing exactly when no word yields a time. Otherwise it yields the time of a word whose predecessors all yield nothing. |
| TimeExtractor.WordTimeSpec | main.go:88-105 | A word yields a time only if it contains ':' and is at most 6 bytes long. If the next word starts with AM or PM in any case, the time is the word, a space and the next word upper-cased. Otherwise the word must end with AM or PM, and the time is the rewrite of the upper-cased word. The time is never "TBD" and never empty. |
| TimeExtractor.NextWordMarkerYieldsTime | main.go:88-96 | Conversely, a word with a colon and at most 6 bytes, followed by a word that starts with AM or PM in any case, yields the word, a space and the next word upper-cased. |
| TimeExtractor.AttachedMarkerYieldsTime | main.go:88-104 | Conversely, such a word that is not followed by a marker word and ends with AM or PM in any case yields the rewrite of the upper-cased word. |
| TimeExtractor.FirstWordHitWins | main.go:85-107 | When no pattern yields a time, the first word that yields one decides the result. |
| TimeExtractor.UnknownOnlyWhenEverythingFails | main.go:85-110 | When no pattern yields a time, "TBD" is returned exactly when no word yields one. |
| MeridiemRewrite.AttachedMarkerIsSeparated | main.go:77-78 | A clock time (H:MM or HH:MM) with an attached AM or PM gets exactly one space between the two. |
| MeridiemRewrite.InsertMeridiemSpaceOnlyAddsSpaces | main.go:101-102 | The rewrite only inserts spaces. Removing spaces from its result gives the input with its spaces removed. |
| MeridiemRewrite.NoClockIsUnchanged | main.go:77-78 | Text in which no clock-and-marker match starts is left unchanged. |
| MeridiemRewrite.InsertMeridiemSpace | main.go:77-78 | The fixed `$1 $2` replacement. AttachedMarkerIsSeparated, NoClockIsUnchanged and InsertMeridiemSpaceOnlyAddsSpaces characterise it. |
| DivisionExtractor.DivisionAfterSpec | main.go:133-150 | Splitting a team name at a club prefix yields a division exactly when the prefix occurs and the text after its first occurrence, up to the next occurrence, is not blank. The division is that text trimmed. |
| DivisionExtractor.LineDivisionSpec | main.go:118-150 | A line yields a division only if the line and its team name both mention "reno apex" in any case. The division is non-blank and trimmed. It comes from the full prefix "Reno APEX Soccer Club " when that gives one, and otherwise from "Reno Apex ". |
| DivisionExtractor.ClubPrefixYieldsDivision | main.go:118-140 | Conversely, a club line whose team name holds "Reno APEX Soccer Club " with non-blank text after its first occurrence, up to the next, yields that text trimmed. |
| DivisionExtractor.ShortPrefixYieldsDivision | main.go:118-151 | Conversely, when the full prefix yields nothing but the team name holds "Reno Apex " with non-blank text after it, the line yields that text trimmed. |
| DivisionExtractor.TeamNameNotBlank | main.go:119-131 | On a line that mentions the club, the team name is never blank, so the `teamName != ""` check always passes. |
| DivisionExtractor.OwnTeamNameYieldsDivision | main.go:116-140 | A markup-free line made of the full club prefix and a trimmed division that does not itself contain the full prefix yields that division. |
| DivisionExtractor.StagesInOrder | main.go:114-197 | The first line whose team name yields a division decides the result. Only when no line yields one does the first matching league pattern decide. Only when no pattern matches do the keywords decide, and then "League". |
| DivisionExtractor.KeywordsInPriorityOrder | main.go:182-197 | The keyword stage reports the label of the first of premier, npl, elite and gold that the lower-cased context contains, in that order. It reports nothing when the context contains none of them. |
| DivisionExtractor.DivisionNeverBlank | main.go:114-197 | The reported division is never the empty string, provided no league pattern captures only white space. |
| DivisionExtractor.FindDivision | main.go:114-198 | The three stages and the "League" sentinel. StagesInOrder and DivisionNeverBlank are about it. |
| DivisionExtractor.LineDivision | main.go:117-153 | What one line yields in the team-name stage. LineDivisionSpec (only if), ClubPrefixYieldsDivision and ShortPrefixYieldsDivision (if) characterise it; OwnTeamNameYieldsDivision is an instance. |
| DivisionExtractor.TeamName | main.go:119-131 | The trimmed link text, or the whole line. TeamNameNotBlank is about it. |
| DivisionExtractor.CapturedDivision | main.go:172-180 | The trimmed first capture group of a league match. StagesInOrder and DivisionNeverBlank use it. |
| DivisionExtractor.FromKeywords | main.go:183-195 | The keyword if-chain. KeywordsInPriorityOrder shows it is a first-match search in priority order. |
| DivisionExtractor.FromTeamName | main.go:116-154 | The loop over lines, returning the first line's division. StagesInOrder, LineDivisionSpec and its two converses state what it returns. |
| DivisionExtractor.FromPatterns | main.go:157-180 | The league patterns tried in order with the first capture kept. StagesInOrder states that the first matching pattern decides. |
| DivisionExtractor.DivisionAfter | main.go:134-141 | The split at a club prefix and the non-blank test on the trimmed second piece, used for both prefixes. DivisionAfterSpec characterises it in both directions. |
| GoStrings.IndexIsFirstOccurrence | main.go:12-13 | `Index` finds a substring exactly when it occurs, and it finds the first occurrence. |
| GoStrings.TrimSpaceSpec | main.go:9 | `TrimSpace` removes the leading and trailing white space and nothing else. The result neither starts nor ends with white space. |
| GoStrings.JoinSplit | main.go:3 | Joining the pieces of a split with the separator gives the text back. |
| GoStrings.SplitPiecesAvoidSep | main.go:3 | No piece of a split contains the separator. |
| GoStrings.SplitSecondPiece | main.go:134 | When the separator occurs, the second piece of a split is the text after its first occurrence, up to the next occurrence or the end. |
| GoStrings.FieldsAreWords | main.go:86 | Every field is a non-empty run of non-space bytes. There are no fields exactly when the text is all white space. |
| GoStrings.FieldsOfWord | main.go:93 | The fields of a single word are that word alone. |
| GoStrings.FieldsConcat | main.go:86 | The fields laid end to end are the text with its white space removed, in order. |
| GoStrings.FieldsAtSpace | main.go:86 | A white-space byte separates fields: the fields of a text split at a space byte are the fields of the part before it followed by those of the part after it. |
| GoStrings.ToUpperSpec | main.go:64 | Upper-casing leaves no lower-case ASCII letter and keeps every byte's white-space status. |
| GoStrings.ToLowerSlice | main.go:10 | Lower-casing a slice is slicing the lower-cased text. |
| Options.FirstSome | main.go:59-83 | The ordered search yields nothing exactly when every element fails. Otherwise it yields the result of an element all of whose predecessors fail. |
| Options.FirstSomeAt | main.go:171-180 | When element k is the first that succeeds, the search yields exactly its result. |
| Options.CollectSpec | main.go:8-25 | A value is collected exactly when some element yields it. |

## Left out

- Logging (`log.Printf`) has no bearing on any result and is not modelled.
- The regular-expression engine is not modelled. `regexp.MustCompile` and `FindStringSubmatch` become the `Matcher` parameter. The model fixes the pattern texts, the `(?i)` prefix, the order of the patterns and what is done with the submatches. It does not state what any pattern matches.
- The fixed `$1 $2` replacement is modelled exactly as a scan, for ASCII input.
- `strings.ToLower` and `strings.ToUpper` are modelled for ASCII letters only. Unicode case mapping is not modelled.
- White space is Go's ASCII set: space, tab, newline, carriage return, vertical tab and form feed. Unicode spaces are not modelled.
- `Split` is modelled only for non-empty separators, which are the only ones the source uses.
- DivisionExtractor.DivisionNeverBlank: assumes the engine never captures only white space for a league pattern. The engine is abstract, and every league pattern's group starts with a letter or a digit.
- TimeExtractor.UnknownIffNothingMatches: assumes every whole match of a time pattern contains a colon. The engine is abstract, and each of the four time patterns has a literal `:` outside any optional part. Without it, an engine could return a match whose text is "TBD".
- TimeExtractor.PatternStageIsNotUnknown: assumes the same of the engine, for the same reason.
- TimeExtractor.FindTimeNeverBlank: assumes the same of the engine, for the same reason.
- Everything around the three functions (HTTP handlers, page fetching, CORS, port configuration, locating rows by date) is not part of this model.

=== FILE: division.dfy ===
/**
 `findDivisionInContext` (main.go:114-198): the division is read, in this
 order, from the tracked club's own team name, from an ordered list of
 league patterns, from a fixed keyword list, and is "League" when all of
 them fail.
 */
module DivisionExtractor {
  import opened GoStrings
  import opened Options
  import opened Markup
  import opened Regex

  /** The sentinel for "no division found". */
  const Fallback: string := "League"

  /** How the tracked club is recognised on a line, after lower-casing. */
  const TrackedClub: string := "reno apex"

  /** The full club prefix of a team name, matched with its exact letter case. */
  const ClubPrefix: string := "Reno APEX Soccer Club "

  /** The short club prefix, tried when the full one yields nothing. */
  const ShortPrefix: string := "Reno Apex "

  /** The league patterns, in the order they are tried. */
  const DivisionPatterns: seq<string> := [
    @"(\d{4}[BG][\w\s]*(?:NPL|Elite|Premier|Gold|Silver|Bronze)[\w\s]*(?:East|West|North|South|Central)?)",
    @"(U\d{2}[\w\s]*(?:NPL|Elite|Premier|Gold|Silver|Bronze)[\w\s]*(?:East|West|North|South|Central)?)",
    @"(\d{2}[BG][\w\s]*(?:NPL|Elite|Premier|Gold|Silver|Bronze)[\w\s]*(?:East|West|North|South|Central)?)",
    @"(Premier[\w\s]*(?:East|West|North|South|Central)?)",
    @"(NPL[\w\s]*(?:East|West|North|South|Central)?)",
    @"(Elite[\w\s]*(?:East|West|North|South|Central)?)",
    @"(Gold[\w\s]*(?:East|West|North|South|Central)?)",
    @"(Silver[\w\s]*(?:East|West|North|South|Central)?)"
  ]

  /** The keywords of the last stage with the label each reports, highest priority first. */
  const Keywords: seq<(string, string)> := [("premier", "Premier"), ("npl", "NPL"), ("elite", "Elite"), ("gold", "Gold")]

  // ---------------------------------------------------------------------------
  // Stage 1: the tracked club's own team name

  /** The team name on a line: its trimmed link text, or the whole line when that is missing or blank. */
  function TeamName(line: string): string {
    var linked := match LinkText(line) case Some(text) => TrimSpace(text) case None => "";
    if linked == "" then line else linked
  }

  /** The text after the first occurrence of `sep` in `s`, up to its next occurrence or the end. */
  function SegmentAfter(s: string, sep: string): string
    requires sep != [] && Contains(s, sep)
  {
    var rest := s[Index(s, sep) + |sep|..];
    rest[..if Contains(rest, sep) then Index(rest, sep) else |rest|]
  }

  /** The trimmed second piece of `team` split at `prefix`, when there is one and it is not blank. */
  function DivisionAfter(team: string, prefix: string): Option<string>
    requires prefix != []
  {
    var parts := Split(team, prefix);
    if |parts| >= 2 then
      var division := TrimSpace(parts[1]);
      if division != "" then Some(division) else None
    else None
  }

  /** What one line yields in the first stage (main.go:118-152). */
  function LineDivision(line: string): Option<string> {
    if !Contains(ToLower(line), TrackedClub) then None
    else
      var team := TeamName(line);
      if team != "" && Contains(ToLower(team), TrackedClub) then
        match DivisionAfter(team, ClubPrefix)
        case Some(division) => Some(division)
        case None => DivisionAfter(team, ShortPrefix)
      else None
  }

  /** The first line, in order, whose team name yields a division. */
  function FromTeamName(context: string): Option<string> {
    FirstSome(Lines(context), LineDivision)
  }

  // ---------------------------------------------------------------------------
  // Stage 2: the league patterns

  /** The trimmed first capture group of a match, blank or not. */
  function CapturedDivision(found: Option<seq<string>>): Option<string> {
    if found.Some? && |found.value| >= 2 then Some(TrimSpace(found.value[1])) else None
  }

  /** The first league pattern that matches, in order. */
  function FromPatterns(m: Matcher, context: string): Option<string> {
    FirstSome(DivisionPatterns, (p: string) => CapturedDivision(m(CaseInsensitive(p), context)))
  }

  // ---------------------------------------------------------------------------
  // Stage 3: the keywords

  /** The keyword checks of main.go:183-195, in their order. */
  function FromKeywords(context: string): Option<string> {
    var lower := ToLower(context);
    if Contains(lower, "premier") then Some("Premier")
    else if Contains(lower, "npl") then Some("NPL")
    else if Contains(lower, "elite") then Some("Elite")
    else if Contains(lower, "gold") then Some("Gold")
    else None
  }

  // ---------------------------------------------------------------------------
  // The extractor

  /** The division `findDivisionInContext` reports for `context`, given the regular-expression engine `m`. */
  function FindDivision(m: Matcher, context: string): string {
    var named := FromTeamName(context);
    if named.Some? then named.value
    else
      var matched := FromPatterns(m, context);
      if matched.Some? then matched.value
      else
        var keyword := FromKeywords(context);
        if keyword.Some? then keyword.value else Fallback
  }

  // ---------------------------------------------------------------------------
  // Properties

  /**
   Splitting at a prefix yields a division exactly when the prefix occurs and
   the text after its first occurrence, up to the next one, is not blank;
   the division is that text trimmed.
   */
  lemma DivisionAfterSpec(team: string, prefix: string)
    requires prefix != []
    ensures DivisionAfter(team, prefix).Some? <==>
      Contains(team, prefix) && TrimSpace(SegmentAfter(team, prefix)) != ""
    ensures DivisionAfter(team, prefix).Some? ==>
      DivisionAfter(team, prefix).value == TrimSpace(SegmentAfter(team, prefix))
  {
    if Contains(team, prefix) {
      SplitSecondPiece(team, prefix);
    }
  }

  /**
   A line yields a division only if it mentions the tracked club in any
   letter case; the division is the non-blank, trimmed text after the full
   club prefix in the team name when there is one, and otherwise the text
   after the short prefix.
   */
  lemma LineDivisionSpec(line: string)
    requires LineDivision(line).Some?
    ensures var team, division := TeamName(line), LineDivision(line).value;
      && Contains(ToLower(line), TrackedClub)
      && Contains(ToLower(team), TrackedClub)
      && division != ""
      && !IsSpace(division[0]) && !IsSpace(division[|division| - 1])
      && if DivisionAfter(team, ClubPrefix).Some?
         then Contains(team, ClubPrefix) && division == TrimSpace(SegmentAfter(team, ClubPrefix))
         else Contains(team, ShortPrefix) && division == TrimSpace(SegmentAfter(team, ShortPrefix))
  {
    var team := TeamName(line);
    DivisionAfterSpec(team, ClubPrefix);
    DivisionAfterSpec(team, ShortPrefix);
    if DivisionAfter(team, ClubPrefix).Some? {
      TrimSpaceSpec(SegmentAfter(team, ClubPrefix));
    } else {
      TrimSpaceSpec(SegmentAfter(team, ShortPrefix));
    }
  }

  /**
   Conversely, a club line whose team name holds the full club prefix with
   non-blank text after it yields that text, trimmed.
   */
  lemma ClubPrefixYieldsDivision(line: string)
    requires Contains(ToLower(line), TrackedClub) && Contains(ToLower(TeamName(line)), TrackedClub)
    requires Contains(TeamName(line), ClubPrefix) && TrimSpace(SegmentAfter(TeamName(line), ClubPrefix)) != ""
    ensures LineDivision(line) == Some(TrimSpace(SegmentAfter(TeamName(line), ClubPrefix)))
  {
    DivisionAfterSpec(TeamName(line), ClubPrefix);
  }

  /**
   Conversely, a club line whose team name yields nothing after the full
   prefix, but holds the short prefix with non-blank text after it, yields
   that text, trimmed.
   */
  lemma ShortPrefixYieldsDivision(line: string)
    requires Contains(ToLower(line), TrackedClub) && Contains(ToLower(TeamName(line)), TrackedClub)
    requires DivisionAfter(TeamName(line), ClubPrefix).None?
    requires Contains(TeamName(line), ShortPrefix) && TrimSpace(SegmentAfter(TeamName(line), ShortPrefix)) != ""
    ensures LineDivision(line) == Some(TrimSpace(SegmentAfter(TeamName(line), ShortPrefix)))
  {
    DivisionAfterSpec(TeamName(line), ShortPrefix);
  }

  /** The team name of a line that mentions the tracked club is never blank, so that check always passes. */
  lemma TeamNameNotBlank(line: string)
    requires Contains(ToLower(line), TrackedClub)
    ensures TeamName(line) != ""
  {
  }

  /**
   The stages are tried in order, and a later one is consulted only when all
   earlier ones yield nothing: the first line whose team name yields a
   division decides, and after it the first league pattern that matches.
   */
  lemma StagesInOrder(m: Matcher, context: string)
    ensures FromTeamName(context).Some? ==>
      exists k :: 0 <= k < |Lines(context)| && LineDivision(Lines(context)[k]) == Some(FindDivision(m, context))
        && forall j :: 0 <= j < k ==> LineDivision(Lines(context)[j]).None?
    ensures FromTeamName(context).None? ==>
      forall k :: 0 <= k < |Lines(context)| ==> LineDivision(Lines(context)[k]).None?
    ensures FromTeamName(context).None? && FromPatterns(m, context).Some? ==>
      exists k :: 0 <= k < |DivisionPatterns|
        && CapturedDivision(m(CaseInsensitive(DivisionPatterns[k]), context)) == Some(FindDivision(m, context))
        && forall j :: 0 <= j < k ==> CapturedDivision(m(CaseInsensitive(DivisionPatterns[j]), context)).None?
    ensures FromTeamName(context).None? && FromPatterns(m, context).None? ==>
      FindDivision(m, context) == if FromKeywords(context).Some? then FromKeywords(context).value else Fallback
  {
  }

  /**
   The keyword checks are a search over `Keywords` in priority order: the
   label of the first keyword the lower-cased context contains, and nothing
   when it contains none of them.
   */
  lemma KeywordsInPriorityOrder(context: string)
    ensures var lower := ToLower(context);
      FromKeywords(context) == FirstSome(Keywords, (kw: (string, string)) => if Contains(lower, kw.0) then Some(kw.1) else None)
  {
    var lower := ToLower(context);
    var f := (kw: (string, string)) => if Contains(lower, kw.0) then Some(kw.1) else None;
    if Contains(lower, "premier") {
      FirstSomeAt(Keywords, f, 0);
    } else if Contains(lower, "npl") {
      FirstSomeAt(Keywords, f, 1);
    } else if Contains(lower, "elite") {
      FirstSomeAt(Keywords, f, 2);
    } else if Contains(lower, "gold") {
      FirstSomeAt(Keywords, f, 3);
    } else {
      assert forall k :: 0 <= k < |Keywords| ==> f(Keywords[k]).None?;
    }
  }

  /**
   The reported division is never blank, as long as the regular-expression
   engine never captures only white space for a league pattern: the team-name
   stage and the keyword stage cannot produce a blank division.
   */
  lemma DivisionNeverBlank(m: Matcher, context: string)
    requires forall k :: 0 <= k < |DivisionPatterns| ==> CapturedDivision(m(CaseInsensitive(DivisionPatterns[k]), context)) != Some("")
    ensures FindDivision(m, context) != ""
  {
    var lines := Lines(context);
    var named := FromTeamName(context);
    var matched := FromPatterns(m, context);
    if named.Some? {
      var k :| 0 <= k < |lines| && LineDivision(lines[k]) == named;
      LineDivisionSpec(lines[k]);
    } else if matched.Some? {
      var f := (p: string) => CapturedDivision(m(CaseInsensitive(p), context));
      var k :| 0 <= k < |DivisionPatterns| && f(DivisionPatterns[k]) == matched;
    } else {
      KeywordLabelNotBlank(context);
    }
  }

  /** A keyword label is never blank. */
  lemma KeywordLabelNotBlank(context: string)
    ensures FromKeywords(context) != Some("")
  {
  }

  /**
   A line that is the club's own team name, written without markup as the
   full club prefix followed by a trimmed division, yields that division.
   */
  lemma OwnTeamNameYieldsDivision(division: string)
    requires division != [] && !IsSpace(division[0]) && !IsSpace(division[|division| - 1])
    requires '>' !in division && !Contains(division, ClubPrefix)
    ensures LineDivision(ClubPrefix + division) == Some(division)
  {
    var line := ClubPrefix + division;
    MentionsClubAtStart(division);
    TeamNameWithoutMarkup(line);
    SegmentAfterLeadingPrefix(ClubPrefix, division);
    TrimSpaceOfTrimmed(division);
    ClubPrefixYieldsDivision(line);
  }

  /** A text that starts with the full club prefix mentions the club in lower case. */
  lemma MentionsClubAtStart(rest: string)
    ensures Contains(ToLower(ClubPrefix + rest), TrackedClub)
  {
    var lower := ToLower(ClubPrefix + rest);
    assert lower[..|TrackedClub|] == TrackedClub;
    assert OccursAt(lower, TrackedClub, 0);
    IndexIsFirstOccurrence(lower, TrackedClub);
  }

  /** Without a `>` there is no link text, so the team name is the whole line. */
  lemma TeamNameWithoutMarkup(line: string)
    requires '>' !in line
    ensures TeamName(line) == line
  {
    IndexOfChar(line, '>');
  }

  /** After a leading prefix that does not occur again, the segment is the rest of the text. */
  lemma SegmentAfterLeadingPrefix(prefix: string, rest: string)
    requires prefix != [] && !Contains(rest, prefix)
    ensures Contains(prefix + rest, prefix) && SegmentAfter(prefix + rest, prefix) == rest
  {
    var s := prefix + rest;
    assert OccursAt(s, prefix, 0);
    IndexIsFirstOccurrence(s, prefix);
    assert s[|prefix|..] == rest;
  }
}

=== FILE: go_strings.dfy ===
/**
 The part of Go's `strings` package that the field extractors use, over
 `string` (= `seq<char>`), with one `char` standing for one byte of an ASCII
 document: `Index`, `Contains`, `HasPrefix`, `HasSuffix`, `ToLower`,
 `ToUpper`, `TrimSpace`, `Split` and `Fields`.
 */
module GoStrings {

  /** White space as Go's `unicode.IsSpace` sees it on ASCII bytes. */
  predicate IsSpace(c: char) {
    c == ' ' || c == '\t' || c == '\n' || c == '\r' || c == '\U{0B}' || c == '\U{0C}'
  }

  predicate IsUpperAscii(c: char) { 'A' <= c <= 'Z' }

  predicate IsLowerAscii(c: char) { 'a' <= c <= 'z' }

  function LowerChar(c: char): char {
    if IsUpperAscii(c) then (c as int + 32) as char else c
  }

  function UpperChar(c: char): char {
    if IsLowerAscii(c) then (c as int - 32) as char else c
  }

  /** `strings.ToLower`, restricted to ASCII letters. */
  function ToLower(s: string): (r: string)
    ensures |r| == |s|
  {
    seq(|s|, i requires 0 <= i < |s| => LowerChar(s[i]))
  }

  /** `strings.ToUpper`, restricted to ASCII letters. */
  function ToUpper(s: string): (r: string)
    ensures |r| == |s|
  {
    seq(|s|, i requires 0 <= i < |s| => UpperChar(s[i]))
  }

  /** Upper-casing leaves no lower-case letter, and touches nothing but letters. */
  lemma ToUpperSpec(s: string)
    ensures forall i :: 0 <= i < |s| ==> !IsLowerAscii(ToUpper(s)[i])
    ensures forall i :: 0 <= i < |s| ==> (IsSpace(ToUpper(s)[i]) <==> IsSpace(s[i]))
  {
  }

  /** Lower-casing commutes with slicing. */
  lemma ToLowerSlice(s: string, lo: nat, hi: nat)
    requires lo <= hi <= |s|
    ensures ToLower(s[lo..hi]) == ToLower(s)[lo..hi]
  {
  }

  /** `sub` occurs in `s` starting at byte offset `i`. */
  predicate OccursAt(s: string, sub: string, i: nat) {
    i + |sub| <= |s| && s[i..i + |sub|] == sub
  }

  /** The first occurrence of `sub` in `s` at or after `from`, or -1. */
  function IndexFrom(s: string, sub: string, from: nat): (r: int)
    requires from <= |s|
    ensures r == -1 || from <= r <= |s| - |sub|
    decreases |s| - from
  {
    if OccursAt(s, sub, from) then from
    else if from == |s| then -1
    else IndexFrom(s, sub, from + 1)
  }

  /** `IndexFrom` finds the first occurrence at or after `from`, and -1 means there is none. */
  lemma {:induction false} IndexFromSpec(s: string, sub: string, from: nat)
    requires from <= |s|
    ensures IndexFrom(s, sub, from) != -1 ==> OccursAt(s, sub, IndexFrom(s, sub, from))
    ensures forall j ::
      from <= j <= |s| && (IndexFrom(s, sub, from) == -1 || j < IndexFrom(s, sub, from)) ==> !OccursAt(s, sub, j)
    decreases |s| - from
  {
    if !OccursAt(s, sub, from) && from < |s| {
      IndexFromSpec(s, sub, from + 1);
    }
  }

  /** `strings.Index`: the offset of the first occurrence of `sub`, or -1. */
  function Index(s: string, sub: string): (r: int)
    ensures r == -1 || 0 <= r <= |s| - |sub|
  {
    IndexFrom(s, sub, 0)
  }

  /** `strings.Contains`. */
  predicate Contains(s: string, sub: string) {
    Index(s, sub) != -1
  }

  /** `strings.HasPrefix`. */
  predicate HasPrefix(s: string, prefix: string) {
    |prefix| <= |s| && s[..|prefix|] == prefix
  }

  /** `strings.HasSuffix`. */
  predicate HasSuffix(s: string, suffix: string) {
    |suffix| <= |s| && s[|s| - |suffix|..] == suffix
  }

  /**
   `Contains` holds exactly when some offset is an occurrence, and `Index`
   is then the first such offset.
   */
  lemma IndexIsFirstOccurrence(s: string, sub: string)
    ensures Contains(s, sub) <==> exists i :: 0 <= i <= |s| && OccursAt(s, sub, i)
    ensures Contains(s, sub) ==>
      (OccursAt(s, sub, Index(s, sub)) && forall j :: 0 <= j < Index(s, sub) ==> !OccursAt(s, sub, j))
  {
    IndexFromSpec(s, sub, 0);
  }

  /** For a one-byte needle, `Index` is the position of the first `c`. */
  lemma IndexOfChar(s: string, c: char)
    ensures Index(s, [c]) == -1 <==> c !in s
    ensures Index(s, [c]) != -1 ==> 0 <= Index(s, [c]) < |s| && s[Index(s, [c])] == c && c !in s[..Index(s, [c])]
  {
    IndexFromSpec(s, [c], 0);
    var r := Index(s, [c]);
    if r == -1 {
      forall j | 0 <= j < |s| ensures s[j] != c {
        assert !OccursAt(s, [c], j);
        assert s[j..j + 1] == [s[j]];
      }
    } else {
      assert OccursAt(s, [c], r);
      assert s[r..r + 1] == [s[r]];
      forall j | 0 <= j < r ensures s[j] != c {
        assert !OccursAt(s, [c], j);
        assert s[j..j + 1] == [s[j]];
      }
    }
  }

  /** When `Index` finds something, `sub` occurs there. */
  lemma IndexOccurs(s: string, sub: string)
    ensures Index(s, sub) != -1 ==> OccursAt(s, sub, Index(s, sub))
  {
    IndexFromSpec(s, sub, 0);
  }

  /** An occurrence inside a slice of `s` is an occurrence in `s`. */
  lemma ContainsInSlice(s: string, lo: nat, hi: nat, sub: string)
    requires lo <= hi <= |s|
    requires Contains(s[lo..hi], sub)
    ensures Contains(s, sub)
  {
    var t := s[lo..hi];
    IndexIsFirstOccurrence(t, sub);
    var i := Index(t, sub);
    assert OccursAt(t, sub, i);
    forall k | 0 <= k < |sub|
      ensures s[lo + i..lo + i + |sub|][k] == sub[k]
    {
      assert sub[k] == t[i..i + |sub|][k] == t[i + k];
    }
    assert s[lo + i..lo + i + |sub|] == sub;
    assert OccursAt(s, sub, lo + i);
    IndexIsFirstOccurrence(s, sub);
  }

  /** An occurrence in the lower-cased form of a slice is one in the lower-cased whole. */
  lemma ContainsInLowerSlice(s: string, lo: nat, hi: nat, sub: string)
    requires lo <= hi <= |s|
    requires Contains(ToLower(s[lo..hi]), sub)
    ensures Contains(ToLower(s), sub)
  {
    ToLowerSlice(s, lo, hi);
    ContainsInSlice(ToLower(s), lo, hi, sub);
  }

  // ---------------------------------------------------------------------------
  // TrimSpace

  /** The number of white-space bytes at the start of `s`. */
  function LeadingSpaces(s: string): (n: nat)
    ensures n <= |s|
  {
    if s != [] && IsSpace(s[0]) then 1 + LeadingSpaces(s[1..]) else 0
  }

  /** The number of white-space bytes at the end of `s`. */
  function TrailingSpaces(s: string): (n: nat)
    ensures n <= |s|
  {
    if s != [] && IsSpace(s[|s| - 1]) then 1 + TrailingSpaces(s[..|s| - 1]) else 0
  }

  lemma {:induction false} LeadingSpacesSpec(s: string)
    ensures forall i :: 0 <= i < LeadingSpaces(s) ==> IsSpace(s[i])
    ensures LeadingSpaces(s) < |s| ==> !IsSpace(s[LeadingSpaces(s)])
  {
    if s != [] && IsSpace(s[0]) {
      LeadingSpacesSpec(s[1..]);
    }
  }

  lemma {:induction false} TrailingSpacesSpec(s: string)
    ensures forall i :: |s| - TrailingSpaces(s) <= i < |s| ==> IsSpace(s[i])
    ensures TrailingSpaces(s) < |s| ==> !IsSpace(s[|s| - 1 - TrailingSpaces(s)])
  {
    if s != [] && IsSpace(s[|s| - 1]) {
      TrailingSpacesSpec(s[..|s| - 1]);
    }
  }

  /** `strings.TrimSpace`: `s` without the white space at both of its ends. */
  function TrimSpace(s: string): (r: string)
    ensures |r| <= |s|
  {
    var a := LeadingSpaces(s);
    var t := s[a..];
    t[..|t| - TrailingSpaces(t)]
  }

  /**
   The trimmed text is the slice of `s` that starts at its first non-space
   byte, everything cut away is white space, and the result neither starts
   nor ends with white space.
   */
  lemma TrimSpaceSpec(s: string)
    ensures var a, r := LeadingSpaces(s), TrimSpace(s);
      && a + |r| <= |s|
      && r == s[a..a + |r|]
      && (forall i :: 0 <= i < a ==> IsSpace(s[i]))
      && (forall i :: a + |r| <= i < |s| ==> IsSpace(s[i]))
      && (r != [] ==> !IsSpace(r[0]) && !IsSpace(r[|r| - 1]))
  {
    var a := LeadingSpaces(s);
    LeadingSpacesSpec(s);
    TrailingSpacesSpec(s[a..]);
  }

  /** A string with no white space at either end is its own trimming. */
  lemma TrimSpaceOfTrimmed(s: string)
    requires s != [] ==> !IsSpace(s[0]) && !IsSpace(s[|s| - 1])
    ensures TrimSpace(s) == s
  {
    if s != [] {
      assert LeadingSpaces(s) == 0;
      assert s[0..] == s;
      assert TrailingSpaces(s) == 0;
    }
  }

  // ---------------------------------------------------------------------------
  // Split and its inverse, Join

  /**
   `strings.Split(s, sep)` for a non-empty separator: the pieces between
   successive non-overlapping occurrences of `sep`, scanning left to right.
   */
  function Split(s: string, sep: string): (parts: seq<string>)
    requires sep != []
    ensures |parts| >= 1
    decreases |s|
  {
    var i := Index(s, sep);
    if i == -1 then [s] else [s[..i]] + Split(s[i + |sep|..], sep)
  }

  /** `strings.Join`: the pieces with `sep` between neighbours. */
  function Join(parts: seq<string>, sep: string): string {
    if |parts| == 0 then []
    else if |parts| == 1 then parts[0]
    else parts[0] + sep + Join(parts[1..], sep)
  }

  /** A text is its prefix up to `i`, the slice from `i` to `j`, and the rest. */
  lemma SliceAt(s: string, i: nat, j: nat)
    requires i <= j <= |s|
    ensures s == s[..i] + s[i..j] + s[j..]
  {
  }

  /** Joining the pieces of a split gives back the original text. */
  lemma {:induction false} JoinSplit(s: string, sep: string)
    requires sep != []
    ensures Join(Split(s, sep), sep) == s
    decreases |s|, 1
  {
    if Index(s, sep) != -1 {
      JoinSplitFound(s, sep);
    }
  }

  /** `JoinSplit` when `sep` occurs: the head piece, the separator, and the join of the rest. */
  lemma {:induction false} JoinSplitFound(s: string, sep: string)
    requires sep != [] && Index(s, sep) != -1
    ensures Join(Split(s, sep), sep) == s
    decreases |s|, 0
  {
    var i := Index(s, sep);
    var rest := s[i + |sep|..];
    JoinSplit(rest, sep);
    SplitAtFirst(s, sep);
    JoinAround(s, sep, i, Split(rest, sep));
  }

  /**
   When `sep` occurs, it occurs where `Index` says, and the split is the text
   before that occurrence followed by the split of the rest.
   */
  lemma SplitAtFirst(s: string, sep: string)
    requires sep != [] && Index(s, sep) != -1
    ensures OccursAt(s, sep, Index(s, sep))
    ensures Split(s, sep) == [s[..Index(s, sep)]] + Split(s[Index(s, sep) + |sep|..], sep)
  {
    IndexOccurs(s, sep);
  }

  /** Joining a head piece, ending where `sep` occurs, to pieces that join to the rest gives back the text. */
  lemma JoinAround(s: string, sep: string, i: nat, tail: seq<string>)
    requires OccursAt(s, sep, i)
    requires |tail| >= 1 && Join(tail, sep) == s[i + |sep|..]
    ensures Join([s[..i]] + tail, sep) == s
  {
    var parts := [s[..i]] + tail;
    assert parts[1..] == tail;
    SliceAt(s, i, i + |sep|);
  }

  /** No piece of a split contains the separator. */
  lemma {:induction false} SplitPiecesAvoidSep(s: string, sep: string)
    requires sep != []
    ensures forall k :: 0 <= k < |Split(s, sep)| ==> !Contains(Split(s, sep)[k], sep)
    decreases |s|
  {
    var i := Index(s, sep);
    if i != -1 {
      var rest := s[i + |sep|..];
      SplitPiecesAvoidSep(rest, sep);
      IndexIsFirstOccurrence(s, sep);
      if Contains(s[..i], sep) {
        IndexIsFirstOccurrence(s[..i], sep);
        var j := Index(s[..i], sep);
        var head := s[..i];
        assert OccursAt(head, sep, j);
        assert head[j..j + |sep|] == s[j..j + |sep|];
        assert OccursAt(s, sep, j);
        assert false;
      }
    }
  }

  /**
   The second piece of a split: when `sep` occurs, it is the text after its
   first occurrence, up to the next occurrence or the end.
   */
  lemma SplitSecondPiece(s: string, sep: string)
    requires sep != [] && Contains(s, sep)
    ensures |Split(s, sep)| >= 2
    ensures var rest := s[Index(s, sep) + |sep|..];
      Split(s, sep)[1] == rest[..if Contains(rest, sep) then Index(rest, sep) else |rest|]
  {
  }

  // ---------------------------------------------------------------------------
  // Fields

  /** A non-empty run of non-space bytes. */
  predicate IsWord(w: string) {
    w != [] && forall i :: 0 <= i < |w| ==> !IsSpace(w[i])
  }

  /** The number of non-space bytes at the start of `s`. */
  function WordLength(s: string): (n: nat)
    ensures n <= |s|
  {
    if s == [] || IsSpace(s[0]) then 0 else 1 + WordLength(s[1..])
  }

  lemma {:induction false} WordLengthSpec(s: string)
    ensures forall i :: 0 <= i < WordLength(s) ==> !IsSpace(s[i])
  {
    if s != [] && !IsSpace(s[0]) {
      WordLengthSpec(s[1..]);
    }
  }

  /** `strings.Fields`: the maximal runs of non-space bytes of `s`, in order. */
  function Fields(s: string): (ws: seq<string>)
    decreases |s|
  {
    if s == [] then []
    else if IsSpace(s[0]) then Fields(s[1..])
    else
      var n := WordLength(s);
      [s[..n]] + Fields(s[n..])
  }

  /** Every field is a word, and there are none exactly when `s` is all white space. */
  lemma {:induction false} FieldsAreWords(s: string)
    ensures forall k :: 0 <= k < |Fields(s)| ==> IsWord(Fields(s)[k])
    ensures Fields(s) == [] <==> forall i :: 0 <= i < |s| ==> IsSpace(s[i])
    decreases |s|
  {
    if s != [] {
      if IsSpace(s[0]) {
        FieldsAreWords(s[1..]);
        assert forall i :: 1 <= i < |s| ==> s[i] == s[1..][i - 1];
      } else {
        var n := WordLength(s);
        WordLengthSpec(s);
        FieldsAreWords(s[n..]);
      }
    }
  }

  /** A single word splits into exactly itself. */
  lemma FieldsOfWord(w: string)
    requires IsWord(w)
    ensures Fields(w) == [w]
  {
    assert WordLength(w) == |w| by {
      WordLengthOfWord(w);
    }
    assert w[..|w|] == w;
    assert Fields(w[|w|..]) == [];
  }

  lemma {:induction false} WordLengthOfWord(w: string)
    requires forall i :: 0 <= i < |w| ==> !IsSpace(w[i])
    ensures WordLength(w) == |w|
  {
    if w != [] {
      WordLengthOfWord(w[1..]);
    }
  }

  /** The bytes of `s` that are not white space, in order. */
  function NonSpace(s: string): string {
    if s == [] then [] else (if IsSpace(s[0]) then [] else [s[0]]) + NonSpace(s[1..])
  }

  /** The pieces of `ws` laid end to end. */
  function Concat(ws: seq<string>): string {
    if ws == [] then [] else ws[0] + Concat(ws[1..])
  }

  lemma {:induction false} NonSpaceConcat(a: string, b: string)
    ensures NonSpace(a + b) == NonSpace(a) + NonSpace(b)
  {
    if a == [] {
      assert a + b == b;
    } else {
      assert (a + b)[1..] == a[1..] + b;
      NonSpaceConcat(a[1..], b);
    }
  }

  lemma {:induction false} NonSpaceOfNoSpace(w: string)
    requires forall i :: 0 <= i < |w| ==> !IsSpace(w[i])
    ensures NonSpace(w) == w
  {
    if w != [] {
      NonSpaceOfNoSpace(w[1..]);
    }
  }

  /**
   The fields laid end to end are the text with its white space removed:
   nothing is lost, nothing is added, and the order is kept.
   */
  lemma {:induction false} FieldsConcat(s: string)
    ensures Concat(Fields(s)) == NonSpace(s)
    decreases |s|
  {
    if s != [] {
      if IsSpace(s[0]) {
        FieldsConcat(s[1..]);
      } else {
        var n := WordLength(s);
        FieldsConcat(s[n..]);
        WordLengthSpec(s);
        NonSpaceOfNoSpace(s[..n]);
        NonSpaceConcat(s[..n], s[n..]);
        assert s == s[..n] + s[n..];
        var ws := [s[..n]] + Fields(s[n..]);
        assert ws[0] == s[..n] && ws[1..] == Fields(s[n..]);
      }
    }
  }

  /** A word stops at the first white-space byte. */
  lemma {:induction false} WordLengthBeforeSpace(a: string, t: string)
    requires t != [] && IsSpace(t[0])
    ensures WordLength(a + t) == WordLength(a)
  {
    if a == [] {
      assert a + t == t;
    } else if !IsSpace(a[0]) {
      assert (a + t)[1..] == a[1..] + t;
      WordLengthBeforeSpace(a[1..], t);
    }
  }

  /**
   A white-space byte separates fields: the fields of `a`, a space byte and
   `b` are the fields of `a` followed by those of `b`. With `FieldsOfWord`
   and `FieldsAreWords` (no fields in blank text) this pins `Fields` down
   completely: the maximal runs of non-space bytes, in order.
   */
  lemma {:induction false} FieldsAtSpace(a: string, c: char, b: string)
    requires IsSpace(c)
    ensures Fields(a + [c] + b) == Fields(a) + Fields(b)
    decreases |a|, 1
  {
    var s := a + [c] + b;
    if a == [] {
      assert s[1..] == b;
    } else if IsSpace(a[0]) {
      assert s[1..] == a[1..] + [c] + b;
      FieldsAtSpace(a[1..], c, b);
    } else {
      FieldsAtSpaceAfterWord(a, c, b);
    }
  }

  /** `FieldsAtSpace` when `a` starts with a word: that word is the first field on both sides. */
  lemma {:induction false} FieldsAtSpaceAfterWord(a: string, c: char, b: string)
    requires IsSpace(c) && a != [] && !IsSpace(a[0])
    ensures Fields(a + [c] + b) == Fields(a) + Fields(b)
    decreases |a|, 0
  {
    var s := a + [c] + b;
    var n := WordLength(a);
    WordLengthBeforeSpace(a, [c] + b);
    assert s == a + ([c] + b);
    assert s[..n] == a[..n];
    assert s[n..] == a[n..] + [c] + b;
    FieldsAtSpace(a[n..], c, b);
  }
}

=== FILE: markup.dfy ===
/**
 The one piece of markup handling the extractors share: the text of a link,
 taken as the bytes after the first `>` of a line and before the next `<`.
 */
module Markup {
  import opened GoStrings
  import opened Options

  /** The context split into lines at every newline byte. */
  function Lines(context: string): (lines: seq<string>)
    ensures |lines| >= 1
    ensures forall k :: 0 <= k < |lines| ==> '\n' !in lines[k]
    ensures Join(lines, "\n") == context
  {
    var lines := Split(context, "\n");
    JoinSplit(context, "\n");
    SplitPiecesAvoidSep(context, "\n");
    forall k | 0 <= k < |lines| ensures '\n' !in lines[k] {
      IndexOfChar(lines[k], '\n');
    }
    lines
  }

  /**
   The untrimmed text between the first `>` of `line` and the first `<`
   after it, or `None` when either byte is missing.
   */
  function LinkText(line: string): Option<string> {
    var start := Index(line, ">");
    if start == -1 then None
    else
      var rest := line[start + 1..];
      var end := Index(rest, "<");
      if end == -1 then None
      else Some(rest[..end])
  }

  /**
   `LinkText` finds text exactly when the line has a `>` with a `<` somewhere
   after it; the text then starts right after the first `>`, contains no `<`,
   and is followed by a `<`.
   */
  lemma LinkTextSpec(line: string)
    ensures LinkText(line).None? <==> ('>' !in line || '<' !in line[Index(line, ">") + 1..])
    ensures LinkText(line).Some? ==>
      var start, text := Index(line, ">"), LinkText(line).value;
      && 0 <= start && start + 1 + |text| < |line|
      && line[start] == '>' && '>' !in line[..start]
      && text == line[start + 1..start + 1 + |text|]
      && line[start + 1 + |text|] == '<' && '<' !in text
  {
    IndexOfChar(line, '>');
    var start := Index(line, ">");
    if start != -1 {
      var rest := line[start + 1..];
      IndexOfChar(rest, '<');
      var end := Index(rest, "<");
      if end != -1 {
        assert rest[..end] == line[start + 1..start + 1 + end];
        assert line[start + 1 + end] == rest[end];
      }
    }
  }

  /** Link text is the slice of the line that starts right after its first `>`. */
  lemma LinkTextIsSlice(line: string)
    requires LinkText(line).Some?
    ensures var lo, text := Index(line, ">") + 1, LinkText(line).value;
      lo + |text| <= |line| && text == line[lo..lo + |text|]
  {
    var start := Index(line, ">");
    var rest := line[start + 1..];
    var end := Index(rest, "<");
    assert rest[..end] == line[start + 1..start + 1 + end];
  }
}

=== FILE: meridiem.dfy ===
/**
 The fixed rewrite `(\d{1,2}:\d{2})(AM|PM)` -> `"$1 $2"` that the time
 extractor applies with Go's `ReplaceAllString` (main.go:77-78 and 101-102):
 every clock time with an AM/PM marker attached gets a space before the
 marker. The pattern is case-sensitive and `\d` is an ASCII digit.
 */
module MeridiemRewrite {

  predicate IsDigit(c: char) { '0' <= c <= '9' }

  predicate IsMeridiem(m: string) { m == "AM" || m == "PM" }

  /** A clock time as the rewrite's first group matches it: `H:MM` or `HH:MM`. */
  predicate IsClock(c: string) {
    || (|c| == 4 && IsDigit(c[0]) && c[1] == ':' && IsDigit(c[2]) && IsDigit(c[3]))
    || (|c| == 5 && IsDigit(c[0]) && IsDigit(c[1]) && c[2] == ':' && IsDigit(c[3]) && IsDigit(c[4]))
  }

  /**
   The length of the clock time in a match of the rewrite's pattern that
   starts at `p`, or 0 when no match starts there. The two-digit and the
   one-digit reading of the hour exclude each other (the second byte is a
   digit in one and `:` in the other), so at most one match starts at `p`.
   */
  function ClockLength(s: string, p: nat): (n: nat)
    requires p <= |s|
    ensures n == 0 || (p + n + 2 <= |s| && IsClock(s[p..p + n]) && IsMeridiem(s[p + n..p + n + 2]))
  {
    if p + 7 <= |s| && IsClock(s[p..p + 5]) && IsMeridiem(s[p + 5..p + 7]) then 5
    else if p + 6 <= |s| && IsClock(s[p..p + 4]) && IsMeridiem(s[p + 4..p + 6]) then 4
    else 0
  }

  /** The rewrite applied to `s[p..]`: every leftmost match, left to right, gets a space before its marker. */
  function InsertMeridiemSpaceFrom(s: string, p: nat): string
    requires p <= |s|
    decreases |s| - p
  {
    if p == |s| then []
    else
      var n := ClockLength(s, p);
      if n == 0 then [s[p]] + InsertMeridiemSpaceFrom(s, p + 1)
      else s[p..p + n] + " " + s[p + n..p + n + 2] + InsertMeridiemSpaceFrom(s, p + n + 2)
  }

  /** `ReplaceAllString(s, "$1 $2")` for the pattern `(\d{1,2}:\d{2})(AM|PM)`. */
  function InsertMeridiemSpace(s: string): string {
    InsertMeridiemSpaceFrom(s, 0)
  }

  /** `s` with every space removed. */
  function WithoutSpaces(s: string): string {
    if s == [] then [] else (if s[0] == ' ' then [] else [s[0]]) + WithoutSpaces(s[1..])
  }

  lemma {:induction false} WithoutSpacesConcat(a: string, b: string)
    ensures WithoutSpaces(a + b) == WithoutSpaces(a) + WithoutSpaces(b)
  {
    if a == [] {
      assert a + b == b;
    } else {
      assert (a + b)[1..] == a[1..] + b;
      WithoutSpacesConcat(a[1..], b);
    }
  }

  /** The rewrite only ever inserts spaces: removing all spaces undoes it. */
  lemma {:induction false} InsertMeridiemSpaceOnlyAddsSpaces(s: string, p: nat)
    requires p <= |s|
    ensures WithoutSpaces(InsertMeridiemSpaceFrom(s, p)) == WithoutSpaces(s[p..])
    decreases |s| - p
  {
    if p < |s| {
      var n := ClockLength(s, p);
      if n == 0 {
        InsertMeridiemSpaceOnlyAddsSpaces(s, p + 1);
        WithoutSpacesConcat([s[p]], InsertMeridiemSpaceFrom(s, p + 1));
        WithoutSpacesConcat([s[p]], s[p + 1..]);
        assert s[p..] == [s[p]] + s[p + 1..];
      } else {
        var head := s[p..p + n + 2];
        var rest := InsertMeridiemSpaceFrom(s, p + n + 2);
        var spaced := s[p..p + n] + " " + s[p + n..p + n + 2];
        assert InsertMeridiemSpaceFrom(s, p) == spaced + rest;
        InsertMeridiemSpaceOnlyAddsSpaces(s, p + n + 2);
        SpaceVanishes(s[p..p + n], s[p + n..p + n + 2]);
        assert head == s[p..p + n] + s[p + n..p + n + 2];
        WithoutSpacesConcat(spaced, rest);
        WithoutSpacesConcat(head, s[p + n + 2..]);
        assert s[p..] == head + s[p + n + 2..];
      }
    }
  }

  /** Inserting one space into a string does not change it once spaces are removed. */
  lemma {:induction false} SpaceVanishes(a: string, b: string)
    ensures WithoutSpaces(a + " " + b) == WithoutSpaces(a + b)
  {
    if a == [] {
      assert a + " " + b == [' '] + b;
      assert ([' '] + b)[1..] == b;
      assert a + b == b;
    } else {
      assert (a + " " + b)[1..] == a[1..] + " " + b;
      assert (a + b)[1..] == a[1..] + b;
      SpaceVanishes(a[1..], b);
    }
  }

  /** A clock time with its marker attached gets exactly one space between the two. */
  lemma AttachedMarkerIsSeparated(clock: string, marker: string)
    requires IsClock(clock) && IsMeridiem(marker)
    ensures InsertMeridiemSpace(clock + marker) == clock + " " + marker
  {
    var s := clock + marker;
    assert s[..|clock|] == clock && s[|clock|..|clock| + 2] == marker;
    assert ClockLength(s, 0) == |clock|;
    assert InsertMeridiemSpaceFrom(s, |s|) == [];
  }

  /** Text in which no match starts is left unchanged. */
  lemma {:induction false} NoClockIsUnchanged(s: string, p: nat)
    requires p <= |s|
    requires forall q :: p <= q <= |s| ==> ClockLength(s, q) == 0
    ensures InsertMeridiemSpaceFrom(s, p) == s[p..]
    decreases |s| - p
  {
    if p < |s| {
      NoClockIsUnchanged(s, p + 1);
      assert s[p..] == [s[p]] + s[p + 1..];
    }
  }

}

=== FILE: opponent.dfy ===
/**
 `findOpponentInContext` (main.go:2-43): the opponent's name is the longest
 link text in the context that passes a team-name filter, or "TBD".

 The Go function is a loop that appends candidates to a slice and a second
 loop that keeps a running longest; `FindOpponentInContext` is that code, and
 it is proved to compute `Opponent`, the specification below, about which the
 lemmas state the promised properties.
 */
module OpponentExtractor {
  import opened GoStrings
  import opened Options
  import opened Markup

  /** The sentinel for "no opponent found". */
  const Unknown: string := "TBD"

  /**
   A line that may name the opponent: it holds a link, does not mention the
   tracked club in any letter case, and is not a link to a pitch schedule.
   */
  predicate IsOpponentLink(line: string) {
    && Contains(line, "<a href=")
    && !Contains(ToLower(line), "reno")
    && !Contains(line, "schedules?pitch")
  }

  /**
   The team-name filter: longer than 8 bytes, at least two words, and no
   mention of the tracked club, a field or a park in any letter case.
   */
  predicate LooksLikeTeamName(name: string) {
    && |name| > 8
    && Contains(name, " ")
    && !Contains(ToLower(name), "reno")
    && !Contains(ToLower(name), "field")
    && !Contains(ToLower(name), "park")
  }

  /** What one line of the context contributes to the candidate list. */
  function LineCandidate(raw: string): Option<string> {
    var line := TrimSpace(raw);
    if !IsOpponentLink(line) then None
    else
      match LinkText(line)
      case None => None
      case Some(text) =>
        var name := TrimSpace(text);
        if LooksLikeTeamName(name) then Some(name) else None
  }

  /** The candidates of `lines`, in line order. */
  function Candidates(lines: seq<string>): seq<string> {
    Collect(lines, LineCandidate)
  }

  /**
   The running longest of `cs`, starting from the empty string and replaced
   only by a strictly longer candidate.
   */
  function Longest(cs: seq<string>): string {
    if cs == [] then ""
    else
      var best := Longest(cs[..|cs| - 1]);
      if |cs[|cs| - 1]| > |best| then cs[|cs| - 1] else best
  }

  /** The opponent that `findOpponentInContext` reports for `context`. */
  function Opponent(context: string): string {
    var best := Longest(Candidates(Lines(context)));
    if best != "" then best else Unknown
  }

  /**
   The extractor as the source writes it: one loop collecting candidates, one
   keeping the longest, then the sentinel check.
   */
  method FindOpponentInContext(context: string) returns (opponent: string)
    ensures opponent == Opponent(context)
  {
    var candidates := CollectCandidates(Lines(context));
    var best := RunningLongest(candidates);
    if best != "" {
      return best;
    }
    return Unknown;
  }

  /** The first loop: the contribution of each line, appended in line order. */
  method CollectCandidates(lines: seq<string>) returns (candidates: seq<string>)
    ensures candidates == Candidates(lines)
  {
    candidates := [];
    var i := 0;
    while i < |lines|
      invariant 0 <= i <= |lines|
      invariant candidates == Candidates(lines[..i])
    {
      var found := ExtractCandidate(lines[i]);
      CandidatesOfPrefix(lines, i);
      if found.Some? {
        candidates := candidates + [found.value];
      }
      i := i + 1;
    }
    assert lines[..|lines|] == lines;
  }

  /** The second loop: a running longest, replaced only by a strictly longer candidate. */
  method RunningLongest(candidates: seq<string>) returns (best: string)
    ensures best == Longest(candidates)
  {
    best := "";
    var j := 0;
    while j < |candidates|
      invariant 0 <= j <= |candidates|
      invariant best == Longest(candidates[..j])
    {
      LongestOfPrefix(candidates, j);
      if |candidates[j]| > |best| {
        best := candidates[j];
      }
      j := j + 1;
    }
    assert candidates[..|candidates|] == candidates;
  }

  /** The body of the first loop: the link text of one trimmed line, when it passes both filters. */
  method ExtractCandidate(raw: string) returns (found: Option<string>)
    ensures found == LineCandidate(raw)
  {
    found := None;
    var line := TrimSpace(raw);
    if IsOpponentLink(line) {
      var start := Index(line, ">");
      if start != -1 {
        var end := Index(line[start + 1..], "<");
        if end != -1 {
          assert line[start + 1..start + 1 + end] == line[start + 1..][..end];
          var name := TrimSpace(line[start + 1..start + 1 + end]);
          if LooksLikeTeamName(name) {
            found := Some(name);
          }
        }
      }
    }
  }

  /** One more line adds its contribution, if any, at the end of the candidates. */
  lemma CandidatesOfPrefix(lines: seq<string>, i: nat)
    requires i < |lines|
    ensures Candidates(lines[..i + 1]) ==
      Candidates(lines[..i]) + (if LineCandidate(lines[i]).Some? then [LineCandidate(lines[i]).value] else [])
  {
    assert lines[..i + 1][..i] == lines[..i];
  }

  /** One more candidate replaces the running longest exactly when it is strictly longer. */
  lemma LongestOfPrefix(cs: seq<string>, j: nat)
    requires j < |cs|
    ensures Longest(cs[..j + 1]) == if |cs[j]| > |Longest(cs[..j])| then cs[j] else Longest(cs[..j])
  {
    assert cs[..j + 1][..j] == cs[..j];
  }

  // ---------------------------------------------------------------------------
  // What a line contributes

  /**
   A line contributes a candidate only if, once trimmed, it is an opponent
   link; the candidate is the trimmed text strictly between the line's first
   `>` and the next `<`, and it passes the team-name filter. Conversely every
   such link text that passes the filter is contributed.
   */
  lemma LineCandidateSpec(raw: string)
    ensures LineCandidate(raw).Some? ==>
      var line, name := TrimSpace(raw), LineCandidate(raw).value;
      && IsOpponentLink(line)
      && LooksLikeTeamName(name)
      && exists text :: LinkText(line) == Some(text) && name == TrimSpace(text) && '<' !in text
    ensures (IsOpponentLink(TrimSpace(raw)) && LinkText(TrimSpace(raw)).Some?
             && LooksLikeTeamName(TrimSpace(LinkText(TrimSpace(raw)).value)))
      ==> LineCandidate(raw) == Some(TrimSpace(LinkText(TrimSpace(raw)).value))
  {
    var line := TrimSpace(raw);
    LinkTextSpec(line);
  }

  /**
   The name check against "reno" never rejects anything: the name is a slice
   of a line whose lower-case form already has no "reno".
   */
  lemma NameRenoCheckIsRedundant(line: string)
    requires IsOpponentLink(line) && LinkText(line).Some?
    ensures !Contains(ToLower(TrimSpace(LinkText(line).value)), "reno")
  {
    LinkTextIsSlice(line);
    var text := LinkText(line).value;
    var lo := Index(line, ">") + 1;
    var name := TrimSpace(text);
    var a := NameInLine(line, text, lo);
    if Contains(ToLower(name), "reno") {
      ContainsInLowerSlice(line, lo + a, lo + a + |name|, "reno");
    }
  }

  /** The trimmed form of a slice `text` of `line` starting at `lo` is itself a slice of `line`. */
  lemma NameInLine(line: string, text: string, lo: nat) returns (a: nat)
    requires lo + |text| <= |line| && text == line[lo..lo + |text|]
    ensures lo + a + |TrimSpace(text)| <= |line|
    ensures TrimSpace(text) == line[lo + a..lo + a + |TrimSpace(text)|]
  {
    TrimSpaceSpec(text);
    a := LeadingSpaces(text);
  }

  // ---------------------------------------------------------------------------
  // The candidate list

  /** The candidates are exactly the contributions of the lines. */
  lemma CandidatesAreContributions(lines: seq<string>)
    ensures forall c :: c in Candidates(lines) <==> exists k :: 0 <= k < |lines| && LineCandidate(lines[k]) == Some(c)
  {
    CollectSpec(lines, LineCandidate);
  }

  /** Every candidate passes the team-name filter. */
  lemma CandidatesLookLikeTeamNames(lines: seq<string>)
    ensures forall c :: c in Candidates(lines) ==> LooksLikeTeamName(c)
  {
    CandidatesAreContributions(lines);
    forall c | c in Candidates(lines) ensures LooksLikeTeamName(c) {
      var k :| 0 <= k < |lines| && LineCandidate(lines[k]) == Some(c);
      LineCandidateSpec(lines[k]);
    }
  }

  // ---------------------------------------------------------------------------
  // The running longest

  /**
   The running longest of a non-empty list is one of its members, at least as
   long as every member, and strictly longer than every member before it: of
   several longest candidates the earliest wins. Of an empty list it is "".
   */
  lemma LongestIsFirstLongest(cs: seq<string>)
    ensures cs == [] ==> Longest(cs) == ""
    ensures cs != [] && Longest(cs) != "" ==>
      exists k :: 0 <= k < |cs| && Longest(cs) == cs[k]
        && (forall j :: 0 <= j < |cs| ==> |cs[j]| <= |cs[k]|)
        && (forall j :: 0 <= j < k ==> |cs[j]| < |cs[k]|)
    ensures forall j :: 0 <= j < |cs| ==> |cs[j]| <= |Longest(cs)|
    ensures Longest(cs) == "" || Longest(cs) in cs
  {
    LongestBound(cs);
    if Longest(cs) != "" {
      var k := LongestPosition(cs);
    }
  }

  /** The running longest is at least as long as every member. */
  lemma {:induction false} LongestBound(cs: seq<string>)
    ensures forall j :: 0 <= j < |cs| ==> |cs[j]| <= |Longest(cs)|
  {
    if cs != [] {
      var init := cs[..|cs| - 1];
      LongestBound(init);
      assert forall j :: 0 <= j < |init| ==> init[j] == cs[j];
    }
  }

  /** A non-empty running longest is the member at some position, strictly longer than every member before it. */
  lemma {:induction false} LongestPosition(cs: seq<string>) returns (k: nat)
    requires Longest(cs) != ""
    ensures k < |cs| && Longest(cs) == cs[k]
    ensures forall j :: 0 <= j < k ==> |cs[j]| < |cs[k]|
  {
    var init := cs[..|cs| - 1];
    var last := cs[|cs| - 1];
    var best := Longest(init);
    if |last| > |best| {
      k := |cs| - 1;
      LongestBound(init);
      assert forall j :: 0 <= j < k ==> cs[j] == init[j];
    } else {
      k := LongestPosition(init);
      assert forall j :: 0 <= j <= k ==> cs[j] == init[j];
    }
  }

  // ---------------------------------------------------------------------------
  // The opponent

  /** "TBD" is reported exactly when no line contributed a candidate. */
  lemma OpponentUnknownIffNoCandidates(context: string)
    ensures Opponent(context) == Unknown <==> Candidates(Lines(context)) == []
  {
    var cs := Candidates(Lines(context));
    CandidatesLookLikeTeamNames(Lines(context));
    LongestIsFirstLongest(cs);
    if cs != [] {
      assert LooksLikeTeamName(cs[0]);
      assert |Longest(cs)| >= |cs[0]| > 8;
    }
  }

  /**
   Any reported opponent other than "TBD" is a candidate: contributed by some
   line, it passes the team-name filter, it is as long as every candidate, and
   it is the first candidate of that length.
   */
  lemma OpponentIsFirstLongestCandidate(context: string)
    ensures var r, cs := Opponent(context), Candidates(Lines(context));
      r != Unknown ==>
        && LooksLikeTeamName(r)
        && (exists line :: line in Lines(context) && LineCandidate(line) == Some(r))
        && (exists k :: 0 <= k < |cs| && r == cs[k]
             && (forall j :: 0 <= j < |cs| ==> |cs[j]| <= |r|)
             && (forall j :: 0 <= j < k ==> |cs[j]| < |r|))
  {
    var lines := Lines(context);
    var cs := Candidates(lines);
    CandidatesAreContributions(lines);
    CandidatesLookLikeTeamNames(lines);
    LongestIsFirstLongest(cs);
    OpponentUnknownIffNoCandidates(context);
    if Opponent(context) != Unknown {
      var r := Opponent(context);
      assert r == Longest(cs) && r != "";
      var k :| 0 <= k < |lines| && LineCandidate(lines[k]) == Some(r);
      assert lines[k] in lines;
    }
  }
}

=== FILE: options.dfy ===
/**
 Optional values and the ordered "first strategy that yields something wins"
 search that all three extractors use: over patterns, over lines, over
 keywords.
 */
module Options {

  datatype Option<T> = None | Some(value: T)

  /**
   The result of the first element of `xs` for which `f` yields a value,
   trying the elements in order; `None` when every one of them fails.
   */
  function FirstSome<T, U>(xs: seq<T>, f: T -> Option<U>): (r: Option<U>)
    ensures r.None? <==> forall i :: 0 <= i < |xs| ==> f(xs[i]).None?
    ensures r.Some? ==>
      exists k :: 0 <= k < |xs| && f(xs[k]) == r && forall j :: 0 <= j < k ==> f(xs[j]).None?
  {
    if xs == [] then None
    else if f(xs[0]).Some? then f(xs[0])
    else
      var r := FirstSome(xs[1..], f);
      assert forall i :: 1 <= i < |xs| ==> xs[i] == xs[1..][i - 1];
      r
  }

  /**
   Conversely, when element `k` is the first one that succeeds, the search
   returns exactly its result: the later elements are never consulted.
   */
  lemma FirstSomeAt<T, U>(xs: seq<T>, f: T -> Option<U>, k: nat)
    requires k < |xs| && f(xs[k]).Some?
    requires forall j :: 0 <= j < k ==> f(xs[j]).None?
    ensures FirstSome(xs, f) == f(xs[k])
  {
    var r := FirstSome(xs, f);
    var k' :| 0 <= k' < |xs| && f(xs[k']) == r && forall j :: 0 <= j < k' ==> f(xs[j]).None?;
    if k' != k {
      assert false;
    }
  }

  /** The values `f` yields over `xs`, in order, skipping the elements it fails on. */
  function Collect<T, U>(xs: seq<T>, f: T -> Option<U>): seq<U> {
    if xs == [] then []
    else
      var last := f(xs[|xs| - 1]);
      Collect(xs[..|xs| - 1], f) + (if last.Some? then [last.value] else [])
  }

  /** A value is collected exactly when some element yields it. */
  lemma {:induction false} CollectSpec<T, U>(xs: seq<T>, f: T -> Option<U>)
    ensures forall u :: u in Collect(xs, f) <==> exists k :: 0 <= k < |xs| && f(xs[k]) == Some(u)
  {
    if xs != [] {
      var init := xs[..|xs| - 1];
      CollectSpec(init, f);
      forall u ensures u in Collect(xs, f) <==> exists k :: 0 <= k < |xs| && f(xs[k]) == Some(u) {
        if u in Collect(init, f) {
          var k :| 0 <= k < |init| && f(init[k]) == Some(u);
          assert xs[k] == init[k];
        }
      }
    }
  }
}

=== FILE: regex.dfy ===
/**
 The regular-expression engine the extractors call (Go's `regexp` package)
 is not modelled: each extractor takes it as a parameter of this type and
 the model fixes only the pattern texts and what is done with the result.
 */
module Regex {
  import opened Options

  /**
   A regular-expression search, `m(pattern, text)` (`FindStringSubmatch`):
   `None` when the pattern does not match `text`, otherwise the submatches of
   the leftmost match, the whole match first and then one entry per capture
   group ("" for a group that took no part in the match).
   */
  type Matcher = (string, string) -> Option<seq<string>>

  /** A pattern as the extractors compile it: with the case-insensitive flag in front. */
  function CaseInsensitive(pattern: string): string {
    "(?i)" + pattern
  }
}

=== FILE: time.dfy ===
/**
 `findTimeInContext` (main.go:46-111): the kickoff time is read by an
 ordered list of regular expressions, then by a scan of the context's
 words, and is "TBD" when both fail.

 The regular-expression engine is a parameter (`Matcher`); what is modelled
 exactly is the order in which the patterns are tried, how their capture
 groups are formatted, the word scan, and the fixed rewrite that puts a
 space between a clock time and its AM/PM marker.
 */
module TimeExtractor {
  import opened GoStrings
  import opened Options
  import opened MeridiemRewrite
  import opened Regex

  /** The sentinel for "no time found". */
  const Unknown: string := "TBD"

  /** The time patterns, in the order they are tried. */
  const TimePatterns: seq<string> := [
    @"(\d{1,2}:\d{2})\s*(AM|PM)\s*(PDT|PST|PT)?",
    @"(\d{1,2}:\d{2})(AM|PM)",
    @"(\d{1,2}:\d{2})[^\w]*([AP]M)",
    @"(\d{2}:\d{2})"
  ]

  // ---------------------------------------------------------------------------
  // The pattern stage

  /**
   How one pattern's submatches become a time (main.go:62-82): with two
   capture groups or more, the trimmed clock, a space and the upper-cased
   marker, then a space and the upper-cased zone when a non-empty third group
   exists; with exactly one group, the trimmed whole match with the space
   rewrite applied; with no match, nothing.
   */
  function FormatGroups(found: Option<seq<string>>): Option<string> {
    match found
    case None => None
    case Some(g) =>
      if |g| >= 3 then
        var zone := if |g| >= 4 && g[3] != "" then " " + ToUpper(TrimSpace(g[3])) else "";
        Some(TrimSpace(g[1]) + " " + ToUpper(TrimSpace(g[2])) + zone)
      else if |g| >= 2 then Some(InsertMeridiemSpace(TrimSpace(g[0])))
      else None
  }

  /** The first time pattern whose submatches format to a time. */
  function FromPatterns(m: Matcher, context: string): Option<string> {
    FirstSome(TimePatterns, (p: string) => FormatGroups(m(CaseInsensitive(p), context)))
  }

  /**
   With at least two groups the result is the trimmed clock followed by one
   space and a tail with no lower-case letter: the marker, then the zone
   exactly when a non-empty third group exists, as a space and the
   upper-cased, trimmed zone.
   */
  lemma FormatGroupsShape(g: seq<string>)
    requires |g| >= 3
    ensures var r, clock := FormatGroups(Some(g)), TrimSpace(g[1]);
      && r.Some?
      && r.value[..|clock| + 1] == clock + " "
      && (forall i :: |clock| + 1 <= i < |r.value| ==> !IsLowerAscii(r.value[i]))
      && r.value[|clock| + 1..|clock| + 1 + |TrimSpace(g[2])|] == ToUpper(TrimSpace(g[2]))
      && (|r.value| > |clock| + 1 + |TrimSpace(g[2])| <==> |g| >= 4 && g[3] != "")
      && (|g| >= 4 && g[3] != "" ==>
            r.value[|clock| + 1 + |TrimSpace(g[2])|..] == " " + ToUpper(TrimSpace(g[3])))
  {
    var clock, marker := TrimSpace(g[1]), ToUpper(TrimSpace(g[2]));
    var zone := if |g| >= 4 && g[3] != "" then " " + ToUpper(TrimSpace(g[3])) else "";
    var r := clock + " " + marker + zone;
    assert r[..|clock| + 1] == clock + " ";
    assert r[|clock| + 1..] == marker + zone;
    ToUpperSpec(TrimSpace(g[2]));
    if |g| >= 4 && g[3] != "" {
      ToUpperSpec(TrimSpace(g[3]));
    }
  }

  // ---------------------------------------------------------------------------
  // The word scan

  /** Whether a word starts with an AM or PM marker, in any letter case. */
  predicate StartsWithMarker(word: string) {
    HasPrefix(ToUpper(word), "AM") || HasPrefix(ToUpper(word), "PM")
  }

  /** Whether a word ends with an AM or PM marker, in any letter case. */
  predicate EndsWithMarker(word: string) {
    HasSuffix(ToUpper(word), "AM") || HasSuffix(ToUpper(word), "PM")
  }

  /**
   What the word at position `i` yields (main.go:88-105): a short word with a
   colon, followed by the next word upper-cased when that one starts with a
   marker, or else the word itself upper-cased and rewritten when it ends
   with a marker.
   */
  function WordTime(words: seq<string>, i: nat): Option<string> {
    if i >= |words| then None
    else
      var word := words[i];
      if !(Contains(word, ":") && |word| <= 6) then None
      else if i + 1 < |words| && StartsWithMarker(words[i + 1]) then
        var next := ToUpper(words[i + 1]);
        assert next[0] == next[..2][0];
        Some(word + " " + Fields(next)[0])
      else if EndsWithMarker(word) then Some(InsertMeridiemSpace(ToUpper(word)))
      else None
  }

  /** The positions `0 .. n - 1`, in order. */
  function Positions(n: nat): (ps: seq<nat>)
    ensures |ps| == n && forall i :: 0 <= i < n ==> ps[i] == i
  {
    seq(n, i requires 0 <= i < n => i)
  }

  /**
   The first word, in order, that yields a time: `None` exactly when no word
   yields one, and otherwise the time of a word all of whose predecessors
   yield nothing.
   */
  function ManualTime(words: seq<string>): (r: Option<string>)
    ensures r.None? <==> forall k :: 0 <= k < |words| ==> WordTime(words, k).None?
    ensures r.Some? ==>
      exists k :: 0 <= k < |words| && WordTime(words, k) == r && forall j :: 0 <= j < k ==> WordTime(words, j).None?
  {
    var ps := Positions(|words|);
    var f := (i: nat) => WordTime(words, i);
    var r := FirstSome(ps, f);
    assert forall k :: 0 <= k < |words| ==> f(ps[k]) == WordTime(words, k);
    r
  }

  /**
   On the words of a text (which contain no white space), a hit is the word
   with a colon and at most 6 bytes, followed either by a space and the whole
   next word upper-cased, when that word starts with AM or PM, or by nothing
   but the rewrite of the upper-cased word when it ends with AM or PM. Such a
   result is never "TBD" and never empty.
   */
  lemma WordTimeSpec(words: seq<string>, i: nat)
    requires forall k :: 0 <= k < |words| ==> IsWord(words[k])
    requires WordTime(words, i).Some?
    ensures var word, r := words[i], WordTime(words, i).value;
      && Contains(word, ":") && |word| <= 6
      && (if i + 1 < |words| && StartsWithMarker(words[i + 1])
          then r == word + " " + ToUpper(words[i + 1])
          else EndsWithMarker(word) && r == InsertMeridiemSpace(ToUpper(word)))
      && r != Unknown && r != ""
  {
    var word := words[i];
    if i + 1 < |words| && StartsWithMarker(words[i + 1]) {
      FollowingMarkerIsWholeWord(words[i + 1]);
    } else {
      AttachedTimeIsNotUnknown(word);
    }
  }

  /**
   Conversely, a short word with a colon followed by a word that starts with
   AM or PM yields the word, a space and the next word upper-cased.
   */
  lemma NextWordMarkerYieldsTime(words: seq<string>, i: nat)
    requires forall k :: 0 <= k < |words| ==> IsWord(words[k])
    requires i + 1 < |words| && Contains(words[i], ":") && |words[i]| <= 6
    requires StartsWithMarker(words[i + 1])
    ensures WordTime(words, i) == Some(words[i] + " " + ToUpper(words[i + 1]))
  {
    FollowingMarkerIsWholeWord(words[i + 1]);
  }

  /**
   Conversely, a short word with a colon that is not followed by a marker
   word, and ends with AM or PM, yields its upper-cased rewrite.
   */
  lemma AttachedMarkerYieldsTime(words: seq<string>, i: nat)
    requires i < |words| && Contains(words[i], ":") && |words[i]| <= 6
    requires !(i + 1 < |words| && StartsWithMarker(words[i + 1]))
    requires EndsWithMarker(words[i])
    ensures WordTime(words, i) == Some(InsertMeridiemSpace(ToUpper(words[i])))
  {
  }

  /** A word that starts with a marker is, once upper-cased, its own single field. */
  lemma FollowingMarkerIsWholeWord(next: string)
    requires IsWord(next) && StartsWithMarker(next)
    ensures Fields(ToUpper(next)) == [ToUpper(next)] && |ToUpper(next)| >= 2
  {
    ToUpperSpec(next);
    FieldsOfWord(ToUpper(next));
  }

  /** The rewrite of an upper-cased word with a colon still has a colon, so it is neither "TBD" nor empty. */
  lemma AttachedTimeIsNotUnknown(word: string)
    requires Contains(word, ":")
    ensures InsertMeridiemSpace(ToUpper(word)) != Unknown && InsertMeridiemSpace(ToUpper(word)) != ""
  {
    IndexOfChar(word, ':');
    var c :| 0 <= c < |word| && word[c] == ':';
    RewriteWithColonIsNotUnknown(ToUpper(word), c);
  }

  /** The space rewrite of a text with a colon keeps the colon, so it is neither "TBD" nor empty. */
  lemma RewriteWithColonIsNotUnknown(t: string, c: nat)
    requires c < |t| && t[c] == ':'
    ensures InsertMeridiemSpace(t) != Unknown && InsertMeridiemSpace(t) != ""
  {
    InsertMeridiemSpaceOnlyAddsSpaces(t, 0);
    assert t[0..] == t;
    ColonSurvives(t, c);
    assert ':' !in WithoutSpaces(Unknown);
  }

  /** A colon of `s` is still there once `s` is stripped of spaces. */
  lemma {:induction false} ColonSurvives(s: string, c: nat)
    requires c < |s| && s[c] == ':'
    ensures ':' in WithoutSpaces(s)
  {
    if c == 0 {
      WithoutSpacesConcat([s[0]], s[1..]);
      assert s == [s[0]] + s[1..];
    } else {
      ColonSurvives(s[1..], c - 1);
      WithoutSpacesConcat([s[0]], s[1..]);
      assert s == [s[0]] + s[1..];
    }
  }

  // ---------------------------------------------------------------------------
  // The extractor

  /** The time `findTimeInContext` reports for `context`, given the regular-expression engine `m`. */
  function FindTime(m: Matcher, context: string): string {
    match FromPatterns(m, context)
    case Some(t) => t
    case None =>
      match ManualTime(Fields(context))
      case Some(t) => t
      case None => Unknown
  }

  /**
   The patterns are tried in order and the first whose submatches format to
   a time decides the result; later patterns and the word scan are never
   consulted.
   */
  lemma FirstMatchingPatternWins(m: Matcher, context: string, k: nat)
    requires k < |TimePatterns|
    requires FormatGroups(m(CaseInsensitive(TimePatterns[k]), context)).Some?
    requires forall j :: 0 <= j < k ==> FormatGroups(m(CaseInsensitive(TimePatterns[j]), context)).None?
    ensures FindTime(m, context) == FormatGroups(m(CaseInsensitive(TimePatterns[k]), context)).value
  {
    FirstSomeAt(TimePatterns, (p: string) => FormatGroups(m(CaseInsensitive(p), context)), k);
  }

  /**
   When no pattern yields a time, the first word that yields one decides the
   result.
   */
  lemma FirstWordHitWins(m: Matcher, context: string, k: nat)
    requires forall j :: 0 <= j < |TimePatterns| ==> FormatGroups(m(CaseInsensitive(TimePatterns[j]), context)).None?
    requires k < |Fields(context)| && WordTime(Fields(context), k).Some?
    requires forall j :: 0 <= j < k ==> WordTime(Fields(context), j).None?
    ensures FindTime(m, context) == WordTime(Fields(context), k).value
  {
    var words := Fields(context);
    var r := ManualTime(words);
    var k' :| 0 <= k' < |words| && WordTime(words, k') == r && forall j :: 0 <= j < k' ==> WordTime(words, j).None?;
    if k' != k {
      assert false;
    }
  }

  /**
   When no pattern yields a time, the result is "TBD" exactly when no word
   yields one either: a word result is never "TBD".
   */
  lemma UnknownOnlyWhenEverythingFails(m: Matcher, context: string)
    requires forall j :: 0 <= j < |TimePatterns| ==> FormatGroups(m(CaseInsensitive(TimePatterns[j]), context)).None?
    ensures FindTime(m, context) == Unknown <==>
      forall k :: 0 <= k < |Fields(context)| ==> WordTime(Fields(context), k).None?
  {
    var words := Fields(context);
    var r := ManualTime(words);
    if r.Some? {
      var k :| 0 <= k < |words| && WordTime(words, k) == r;
      FieldsAreWords(context);
      WordTimeSpec(words, k);
    }
  }

  /**
   A time the pattern stage formats is neither "TBD" nor empty: with three
   submatches or more it holds the space after the clock, and with two it is
   the rewrite of a whole match that holds a colon.
   */
  lemma PatternTimeIsNotUnknown(g: seq<string>)
    requires |g| >= 3 || (|g| == 2 && ':' in g[0])
    ensures FormatGroups(Some(g)) != Some(Unknown) && FormatGroups(Some(g)) != Some("")
  {
    if |g| >= 3 {
      var clock := TrimSpace(g[1]);
      var r := FormatGroups(Some(g)).value;
      assert r[|clock|] == ' ';
    } else {
      var c := ColonSurvivesTrim(g[0]);
      RewriteWithColonIsNotUnknown(TrimSpace(g[0]), c);
    }
  }

  /** A colon is not white space, so trimming keeps it; `c` is where it lands. */
  lemma ColonSurvivesTrim(s: string) returns (c: nat)
    requires ':' in s
    ensures c < |TrimSpace(s)| && TrimSpace(s)[c] == ':'
  {
    TrimSpaceSpec(s);
    var a := LeadingSpaces(s);
    var i :| 0 <= i < |s| && s[i] == ':';
    c := i - a;
  }

  /** Whether the whole match of a search, when there is one, contains a colon. */
  predicate ColonInWholeMatch(found: Option<seq<string>>) {
    found.None? || |found.value| == 0 || ':' in found.value[0]
  }

  /**
   What the engine must deliver for the sentinel to be unambiguous: every
   whole match of a time pattern contains a colon, as each of the four
   patterns has a literal `:` outside any optional part.
   */
  predicate MatchesHaveColon(m: Matcher, context: string) {
    forall k :: 0 <= k < |TimePatterns| ==> ColonInWholeMatch(m(CaseInsensitive(TimePatterns[k]), context))
  }

  /** A time found by the pattern stage is neither "TBD" nor empty. */
  lemma PatternStageIsNotUnknown(m: Matcher, context: string)
    requires MatchesHaveColon(m, context)
    requires FromPatterns(m, context).Some?
    ensures FromPatterns(m, context).value != Unknown && FromPatterns(m, context).value != ""
  {
    var f := (p: string) => FormatGroups(m(CaseInsensitive(p), context));
    var k :| 0 <= k < |TimePatterns| && f(TimePatterns[k]) == FromPatterns(m, context);
    var found := m(CaseInsensitive(TimePatterns[k]), context);
    assert ColonInWholeMatch(found);
    PatternTimeIsNotUnknown(found.value);
  }

  /**
   "TBD" is reported exactly when neither a pattern nor the word scan finds
   a time.
   */
  lemma UnknownIffNothingMatches(m: Matcher, context: string)
    requires MatchesHaveColon(m, context)
    ensures FindTime(m, context) == Unknown <==>
      FromPatterns(m, context).None? && ManualTime(Fields(context)).None?
  {
    var words := Fields(context);
    if FromPatterns(m, context).Some? {
      PatternStageIsNotUnknown(m, context);
    } else if ManualTime(words).Some? {
      var k :| 0 <= k < |words| && WordTime(words, k) == ManualTime(words);
      FieldsAreWords(context);
      WordTimeSpec(words, k);
    }
  }

  /** The reported time is never the empty string. */
  lemma FindTimeNeverBlank(m: Matcher, context: string)
    requires MatchesHaveColon(m, context)
    ensures FindTime(m, context) != ""
  {
    var words := Fields(context);
    if FromPatterns(m, context).Some? {
      PatternStageIsNotUnknown(m, context);
    } else if ManualTime(words).Some? {
      var k :| 0 <= k < |words| && WordTime(words, k) == ManualTime(words);
      FieldsAreWords(context);
      WordTimeSpec(words, k);
    }
  }

  /**
   The first pattern's spaced form: a clock, a marker written in any letter
   case and a zone read as "10:30 pm pdt" give "10:30 PM PDT".
   */
  lemma SpacedTimeWithZone(whole: string, clock: string, marker: string, zone: string)
    requires IsClock(clock) && IsWord(marker) && IsMeridiem(ToUpper(marker)) && IsWord(zone)
    ensures FormatGroups(Some([whole, clock, marker, zone])) == Some(clock + " " + ToUpper(marker) + " " + ToUpper(zone))
  {
    var g := [whole, clock, marker, zone];
    assert forall i :: 0 <= i < |clock| ==> !IsSpace(clock[i]);
    TrimSpaceOfTrimmed(clock);
    TrimSpaceOfTrimmed(marker);
    TrimSpaceOfTrimmed(zone);
    assert g[1] == clock && g[2] == marker && g[3] == zone != "";
    assert FormatGroups(Some(g)) == Some(clock + " " + ToUpper(marker) + (" " + ToUpper(zone)));
    assert clock + " " + ToUpper(marker) + (" " + ToUpper(zone)) == clock + " " + ToUpper(marker) + " " + ToUpper(zone);
  }
}
